=== FILE: README.md ===
# Gallery admin backend: a Dafny model

This project models the behavioural core of a small Go backend that keeps an
image gallery. Admins log in, then upload and delete images tagged by
category. Anyone can list the active images. Image bytes live in an S3
bucket. Image records live in an `images` table.

The model has three parts:

- **Upload names and content types** (`ImageNaming`, over Go's `filepath.Ext`,
  `strings.ToLower`, `strings.ReplaceAll`, `%d` and `strconv.Atoi` in `GoText`
  and `GoStrconv`):
  - the accepted file types;
  - the extension-to-MIME lookup;
  - the filename `<unix seconds>_<category with '/' as '-'><ext>`, the key
    `images/<filename>` and the URL `https://<bucket>.s3.amazonaws.com/<key>`.
- **The gallery as a two-store state machine** (`Models`, `ImageHandler`).
  The state is a blob map (key to bytes and content type) and a row map
  (id to `Image`).
  - `UploadImage` and `DeleteImage` are pure transitions.
  - Every external step (file read, PutObject, INSERT, lookup, DeleteObject,
    DELETE) is an outcome parameter.
  - `GetImages` is a method that filters the row map and sorts it newest first.
- **The login decision** (`AuthHandler.Login`). It decides between 400, 500,
  401 and a token. A token records its claims and the key it would be
  signed with.

The invariant studied is `Consistent`: every row's key has a blob.

- Every upload outcome preserves it.
- A failed row delete after a successful object delete breaks it.
- A successful delete preserves it only while no two rows share a key
  (`KeysUnique`). Two uploads in the same second with the same category and
  extension get the same key. The second overwrites the first's object, and
  deleting either row then leaves the other row without its object.
  `SameSecondUploadsShareKey` and `SharedKeyDeleteDangles` exhibit this. `UploadKeysUniqueIff` and
  `DistinctSecondsDistinctKeys` state when keys stay unique.

Facts about the code that the model keeps:

- A multipart body that cannot be parsed is answered 400. The handler has
  no 413 path and no size cap: `ParseMultipartForm(10 << 20)` only sets a
  memory threshold.
- `Login` checks `JWT_SECRET` only after the credentials match, so a
  mismatch is a 401 even when the secret is unset.
- An undecodable login body is a 400, and that check comes before the
  configuration checks.
- `Login` reads the clock twice: once for `exp` and once for `iat`.
  `exp - iat` is 86400 when both reads fall in the same second, and 86399
  when the second read falls in the next second.
- The record returned by a successful upload carries a fresh clock reading
  as its creation time, not the database's `created_at`.
- `GetImages` never checks `rows.Err()`. If a driver error ends the row
  iteration early, the answer is a 200 carrying only the rows read so far,
  which is a prefix of the full listing.

## Model

| member | source | states |
|---|---|---|
| GoText.ExtIsExtOf | internal/handlers/image.go:102 | `Ext` returns the path's extension: the suffix from the last '.' of the final '/'-separated element, or "" when that element has no '.'. |
| GoText.ExtOfSuffix | internal/handlers/image.go:102 | Any suffix that starts with '.' and holds no other '.' or '/' is the path's extension: the extension is unique. |
| GoText.ExtAfterPrefix | internal/handlers/image.go:102-104 | Putting any prefix before an extension-shaped string keeps that string as the extension. |
| GoText.NoExt | internal/handlers/image.go:210 | A path whose final element has no '.' has the empty extension. |
| GoText.ToLowerIdempotent | internal/handlers/image.go:222 | Lower-casing an already lower-cased string changes nothing. |
| GoStrconv.DigitsValueOfFormatNat | internal/handlers/image.go:103 | Reading back the decimal digits written for a natural number gives that number. |
| GoStrconv.AtoiIffPadded | internal/handlers/image.go:165-169 | Atoi reads a text as n exactly when n fits a 64-bit int and the text is an optional sign, zeros, then the shortest digits of n. A '-' needs n <= 0, and a negative n needs the '-'. |
| GoStrconv.AtoiPadded | internal/handlers/image.go:165-169 | Every text Atoi accepts is a padded decimal of its value, within the 64-bit range. |
| GoStrconv.PaddedAtoi | internal/handlers/image.go:165-169 | Every padded decimal of a 64-bit integer is accepted by Atoi with that value. |
| GoStrconv.AtoiOfFormatInt | internal/handlers/image.go:164-169 | An id written in decimal is parsed back to the same id, for every 64-bit integer. |
| GoStrconv.FormatIntInjective | internal/handlers/image.go:103 | Different integers are written differently. |
| GoStrconv.AtoiEdgeCases | internal/handlers/image.go:165-169 | The empty string, a lone sign and trailing letters are rejected; a '+' sign and leading zeros are accepted. |
| ImageNaming.IsValidImageType | internal/handlers/image.go:209-231 | A name is accepted exactly when the content type of its extension is an image/ type; every other name's extension maps to application/octet-stream. |
| ImageNaming.ContentType | internal/handlers/image.go:221-231 | .jpg and .jpeg (in any letter case) get image/jpeg, .png gets image/png, .webp gets image/webp. Every other extension gets application/octet-stream, the only non-image/ answer. |
| ImageNaming.FoldedSuffixIsExt | internal/handlers/image.go:210 | A suffix that lower-cases to something shaped like an extension is the name's extension. |
| ImageNaming.ValidImageTypeIffSuffix | internal/handlers/image.go:209-219 | A name is accepted exactly when it ends, ignoring case, with .jpg, .jpeg, .png or .webp. |
| ImageNaming.AcceptedExamples | internal/handlers/image.go:209-219 | "a.PNG" and "x.backup.webp" are accepted. |
| ImageNaming.RejectedWithoutDot | internal/handlers/image.go:209-219 | Every name with no '.' is rejected. |
| ImageNaming.RejectedWrongLastExtension | internal/handlers/image.go:209-219 | Only the last extension counts: "photo.jpg.exe" is rejected. |
| ImageNaming.RejectedDotInDirectory | internal/handlers/image.go:209-219 | A '.' in a directory part is not an extension: "img.jpg/raw" is rejected. |
| ImageNaming.ContentTypeCaseInsensitive | internal/handlers/image.go:221-231 | The content type does not depend on the letter case of the extension. |
| ImageNaming.SanitizeCategory | internal/handlers/image.go:103 | Each '/' of the category becomes '-' and every other character stays in place, so the result has the same length and no '/'. |
| ImageNaming.UploadFilename | internal/handlers/image.go:103 | The stored filename is the decimal second, a '_', the sanitised category and the uploaded extension, in that order. It holds a '/' only when that extension does. |
| ImageNaming.StorageKey | internal/handlers/image.go:104 | The key is the filename under the "images/" prefix; dropping the prefix gives the filename back. |
| ImageNaming.ObjectUrl | internal/handlers/image.go:129 | The URL is "https://", the bucket, ".s3.amazonaws.com/" and the key, in that order. |
| ImageNaming.KeyHasOneSlash | internal/handlers/image.go:102-104 | The object key has exactly one '/', right after "images". |
| ImageNaming.FilenameKeepsExtension | internal/handlers/image.go:102-104 | The stored filename and key keep the uploaded name's extension and are themselves accepted names. |
| ImageNaming.FilenameTimestamp | internal/handlers/image.go:103 | The upload second reads back from the filename as the decimal number before the first '_'. |
| ImageNaming.DistinctSecondsDistinctKeys | internal/handlers/image.go:103-104 | Uploads in different seconds never share an object key. |
| ImageNaming.ObjectUrlDeterminesKey | internal/handlers/image.go:129 | Within one bucket the public URL determines the object key. |
| ImageHandler.InsertNewestFirst | internal/handlers/image.go:43-52 | Inserting into a newest-first list keeps it newest first, adds exactly the new image, and keeps the entries distinct. |
| ImageHandler.ReadAllRows | internal/handlers/image.go:63-72 | Reading every row of the query gives each active row once, filtered by category only when the parameter is non-empty, with nothing else, newest first. |
| ImageHandler.GetImages | internal/handlers/image.go:36-75 | A failed query or scan gives 500. Otherwise the answer is always a prefix of a correct listing. It is the whole listing when the iteration is not cut short, and exactly the first k rows when a driver error stops it after k. |
| ImageHandler.UploadImage | internal/handlers/image.go:77-161 | Every outcome keeps each row's object present. No failure adds a row, and every failure except the insert failure changes nothing. A success adds exactly one active row and one blob under the record's key. |
| ImageHandler.UploadAccepted | internal/handlers/image.go:102-151 | After the form checks, every outcome keeps each row's object present. Only the insert failure changes a store, and it adds the blob and no row. A success adds exactly one active row and one blob under the record's key. |
| ImageHandler.UploadStatus | internal/handlers/image.go:159 | An upload is answered 201 Created exactly on success, and 400 or 500 otherwise. |
| ImageHandler.UploadBadRequestIff | internal/handlers/image.go:78-100 | The 400 answers are exactly: an unparsable form, no file, an empty category, a rejected type. An empty category is reported before a bad type. |
| ImageHandler.UploadStoreFailures | internal/handlers/image.go:106-141 | A failed file read, checked before the bucket, gives 500 and changes nothing. An unset bucket and a failed put leave both stores unchanged. A failed insert leaves the blob just put and adds no row. |
| ImageHandler.UploadSuccess | internal/handlers/image.go:118-151 | Success happens exactly when the form is accepted and every step succeeds. It adds one blob (the file's bytes, an image/ type) and one active row with the database's id. The answer carries that id, the derived names and URL, and the category as submitted. |
| ImageHandler.UploadKeyShape | internal/handlers/image.go:102-104 | An accepted upload's key starts with "images/", has no other '/', and keeps the file's extension. |
| ImageHandler.UploadKeysUniqueIff | internal/handlers/image.go:103-137 | A successful upload keeps storage keys unique exactly when no existing row uses its key. |
| ImageHandler.DeleteImage | internal/handlers/image.go:163-207 | A non-integer id gives 400 and an unknown id gives 404. Every failure except the row-delete failure changes nothing, and no failure removes a row. Success removes exactly the row and its object. Unique keys stay unique. |
| ImageHandler.DeleteRejectsBeforeStores | internal/handlers/image.go:164-195 | A 400 or 404 does not depend on the object-store or row-delete outcome. |
| ImageHandler.DeleteOutcomes | internal/handlers/image.go:171-201 | For a parsed id, a failed SELECT gives 500 and changes nothing, as does a failed DeleteObject of a found row. The row-delete failure happens exactly when the lookup, the row and DeleteObject all succeed and the DELETE fails. Success happens exactly when every step succeeds. |
| ImageHandler.DeleteRowFailure | internal/handlers/image.go:188-201 | A failed row delete after the object delete leaves the row and removes its object. |
| ImageHandler.DeleteConsistencyIff | internal/handlers/image.go:188-201 | With unique keys, a delete leaves every row's object present exactly when it is not the failed row delete after a successful object delete. |
| ImageHandler.SharedKeyDeleteDangles | internal/handlers/image.go:187-201 | When two rows share a key, a successful delete of one leaves the other without its object. |
| ImageHandler.SameSecondUploadsShareKey | internal/handlers/image.go:102-137 | Two successful uploads in the same second, with the same category and extension, leave two distinct rows with one key, so keys are no longer unique. |
| ImageHandler.DeleteTwiceNotFound | internal/handlers/image.go:171-182 | Deleting the same id again after a success gives 404. |
| ImageHandler.UploadThenList | internal/handlers/image.go:132-137 | After a successful upload, listing by its category or unfiltered shows it. The shown record has the submitted category, and its key holds the uploaded bytes. |
| ImageHandler.DeleteThenList | internal/handlers/image.go:197-201 | After a successful delete no listing shows the deleted id. |
| ImageHandler.DeleteUndoesAdd | internal/handlers/image.go:163-201 | A successful delete by decimal id removes a row added under a fresh id, and its object added under a fresh key, and nothing else. |
| ImageHandler.UploadThenDeleteRestores | internal/handlers/image.go:163-201 | If an upload used a fresh id and key, deleting its decimal id afterwards restores both stores exactly. |
| AuthHandler.Login | internal/handlers/auth.go:20-66 | An undecodable body, and only that, gives 400. A token is granted only for the configured credentials. Its claims are the submitted username, exp = first clock read + 86400 and iat = second clock read. It is signed with the non-empty secret. With matching credentials, an unset JWT_SECRET gives 500 (misconfigured) and a failed signing gives 500 (signing failed). |
| AuthHandler.MissingAdminConfigIs500 | internal/handlers/auth.go:28-34 | With no admin username or password configured, every decodable request gets 500. |
| AuthHandler.LoginSuccessIff | internal/handlers/auth.go:31-58 | A token is issued exactly when both submitted values equal the configured non-empty ones, the secret is set and signing succeeds. |
| AuthHandler.MismatchIs401 | internal/handlers/auth.go:36-52 | A credential mismatch gives 401 whatever the secret and the signer do. |
| AuthHandler.EmptyCredentialsRejected | internal/handlers/auth.go:31-39 | An empty submitted username or password never gets a token. |
| AuthHandler.TokenLifetimeBounds | internal/handlers/auth.go:42-46 | exp - iat is 86400 when both clock reads fall in the same second. It is 86399 or 86400 when the second read is at most one second later. |

## Left out

- HTTP response writing and JSON encoding/decoding are not modelled. A body
  that cannot be decoded is an absent value. An empty listing is encoded by
  the source as JSON `null` (a nil slice), not `[]`.
- Multipart parsing is not modelled: the handler receives the parsed form or
  nothing.
- The INSERT (image.go:131-136) does not set `is_active`. The model stores every new row as active, which assumes the table's default for `is_active` is true. The schema is not part of this model.
- The AWS SDK and the SQL driver are not modelled. Each call is a
  success/failure outcome parameter, applied to the maps as put, delete or
  insert. The database's new id and `created_at` are parameters of the
  insert outcome. The query text is not modelled.
- GetImages: a failed query and a failed row scan are one outcome
  parameter, and either gives 500. An iteration cut short by a driver error
  is a separate parameter: the number of rows delivered before it.
- Clock reads (`time.Now`) are parameters in Unix seconds.
- Environment variables (`S3_BUCKET_NAME`, `ADMIN_USERNAME`,
  `ADMIN_PASSWORD`, `JWT_SECRET`) are parameters of Upload and Login, ""
  when unset.
- DeleteImage has no bucket parameter. The model keeps one bucket,
  `Store.blobs`, shared by every request. `DeleteImage` reads
  `S3_BUCKET_NAME` without the empty check `UploadImage` makes (image.go:187
  against image.go:112-116). An unset or changed bucket on delete only
  shows up as the outcome of DeleteObject (`objectDeleteOk`), and
  `Consistent` assumes the bucket never changes between requests.
- JWT HS256 signing is a foreign library. A granted token records its
  claims and signing key; signing failure is a parameter.
- The token-validation middleware is not part of this model, so the token's
  acceptance until expiry is not stated.
- cmd/api/main.go (routing, CORS, startup), internal/storage/postgres.go,
  internal/storage/s3.go and internal/models/auth.go are not part of this
  model: they are client construction and plain structs.
- GoText.ToLower lower-cases ASCII letters only. Go lower-cases all of
  Unicode, but no non-ASCII rune lower-cases to a character of ".jpg",
  ".jpeg", ".png" or ".webp". So every decision the handlers make is the
  same.
- GoText.Ext treats only '/' as a separator, as `filepath.Ext` does on Unix.
- GoStrconv.Atoi assumes a 64-bit `int`.
- Concurrent request handling is not modelled: the code has no locking to
  verify.

=== FILE: auth_handler.dfy ===
/** The login decision of internal/handlers/auth.go: configuration checks,
    the credential match and the claims of the issued token. HS256 signing is
    outside the model; a granted token records the claims and the key it is
    signed with, and whether signing succeeds is a parameter. */
module AuthHandler {
  import opened Wrappers

  datatype LoginRequest = LoginRequest(username: string, password: string)

  /** ADMIN_USERNAME, ADMIN_PASSWORD and JWT_SECRET; "" when unset. */
  datatype AuthConfig = AuthConfig(adminUsername: string, adminPassword: string, jwtSecret: string)

  /** The token's claims, times in Unix seconds. */
  datatype Claims = Claims(username: string, exp: int, iat: int)

  datatype SignedToken = SignedToken(claims: Claims, signingKey: string)

  /** The two reads of the clock, in Unix seconds: the one `exp` is computed
      from, then the one `iat` is. */
  datatype LoginClock = LoginClock(expRead: int, iatRead: int)

  datatype LoginError =
    | BadRequestBody
    | ServerMisconfigured
    | InvalidCredentials
    | SigningFailed
  {
    function Status(): int
    {
      match this
      case BadRequestBody => 400
      case InvalidCredentials => 401
      case _ => 500
    }
  }

  /** `time.Hour * 24`, in seconds. */
  const TokenLifetime: int := 86400

  /** Login; `body` is None when the JSON body cannot be decoded. */
  function Login(body: Option<LoginRequest>, cfg: AuthConfig, clock: LoginClock, signOk: bool): (r: Result<SignedToken, LoginError>)
    ensures r.Success? ==>
      && body == Some(LoginRequest(cfg.adminUsername, cfg.adminPassword))
      && r.value.claims == Claims(body.value.username, clock.expRead + TokenLifetime, clock.iatRead)
      && r.value.signingKey == cfg.jwtSecret != ""
    ensures body.None? <==> r == Failure(BadRequestBody)
    ensures body == Some(LoginRequest(cfg.adminUsername, cfg.adminPassword))
              && cfg.adminUsername != "" && cfg.adminPassword != "" ==>
      && (cfg.jwtSecret == "" ==> r == Failure(ServerMisconfigured))
      && (cfg.jwtSecret != "" && !signOk ==> r == Failure(SigningFailed))
  {
    if body.None? then Failure(BadRequestBody)
    else if cfg.adminUsername == "" || cfg.adminPassword == "" then Failure(ServerMisconfigured)
    else if body.value.username != cfg.adminUsername || body.value.password != cfg.adminPassword then
      Failure(InvalidCredentials)
    else
      var claims := Claims(body.value.username, clock.expRead + TokenLifetime, clock.iatRead);
      if cfg.jwtSecret == "" then Failure(ServerMisconfigured)
      else if !signOk then Failure(SigningFailed)
      else Success(SignedToken(claims, cfg.jwtSecret))
  }

  /** With no admin username or password configured, every decodable
      request gets a 500. */
  lemma MissingAdminConfigIs500(body: Option<LoginRequest>, cfg: AuthConfig, clock: LoginClock, signOk: bool)
    requires body.Some?
    requires cfg.adminUsername == "" || cfg.adminPassword == ""
    ensures Login(body, cfg, clock, signOk) == Failure(ServerMisconfigured)
    ensures Login(body, cfg, clock, signOk).error.Status() == 500
  {
  }

  /** A token is issued exactly when both submitted values equal the
      configured, non-empty ones, the secret is set and signing succeeds. */
  lemma LoginSuccessIff(body: Option<LoginRequest>, cfg: AuthConfig, clock: LoginClock, signOk: bool)
    ensures Login(body, cfg, clock, signOk).Success? <==>
      && body.Some?
      && cfg.adminUsername != "" && cfg.adminPassword != ""
      && body.value.username == cfg.adminUsername
      && body.value.password == cfg.adminPassword
      && cfg.jwtSecret != ""
      && signOk
  {
  }

  /** A credential mismatch is a 401 whatever the secret and the signer do:
      the secret is looked at only after a match. */
  lemma MismatchIs401(body: Option<LoginRequest>, cfg: AuthConfig, clock: LoginClock, signOk: bool)
    requires body.Some? && cfg.adminUsername != "" && cfg.adminPassword != ""
    requires body.value.username != cfg.adminUsername || body.value.password != cfg.adminPassword
    ensures Login(body, cfg, clock, signOk) == Failure(InvalidCredentials)
    ensures Login(body, cfg, clock, signOk).error.Status() == 401
  {
  }

  /** An empty submitted username or password never gets a token. */
  lemma EmptyCredentialsRejected(body: Option<LoginRequest>, cfg: AuthConfig, clock: LoginClock, signOk: bool)
    requires body.Some? && (body.value.username == "" || body.value.password == "")
    ensures Login(body, cfg, clock, signOk).Failure?
    ensures Login(body, cfg, clock, signOk).error in {ServerMisconfigured, InvalidCredentials}
  {
  }

  /** The token expires 24 hours after it was issued when both clock reads
      fall in the same second; when the second read falls in the next
      second, one second earlier. */
  lemma TokenLifetimeBounds(body: Option<LoginRequest>, cfg: AuthConfig, clock: LoginClock, signOk: bool)
    requires Login(body, cfg, clock, signOk).Success?
    requires clock.expRead <= clock.iatRead <= clock.expRead + 1
    ensures var c := Login(body, cfg, clock, signOk).value.claims;
      && TokenLifetime - 1 <= c.exp - c.iat <= TokenLifetime
      && (clock.expRead == clock.iatRead ==> c.exp == c.iat + TokenLifetime)
  {
  }
}

=== FILE: go_strconv.dfy ===
/** Decimal integers as Go writes them with `fmt.Sprintf("%d", n)` and reads
    them with `strconv.Atoi` on a 64-bit platform. */
module GoStrconv {
  import opened Wrappers

  const Int64Min: int := -0x8000_0000_0000_0000
  const Int64Max: int := 0x7FFF_FFFF_FFFF_FFFF

  /** Values a Go `int` holds on a 64-bit platform. */
  predicate InInt64(n: int)
  {
    Int64Min <= n <= Int64Max
  }

  predicate IsDigit(c: char)
  {
    '0' <= c <= '9'
  }

  predicate AllDigits(s: string)
  {
    forall i :: 0 <= i < |s| ==> IsDigit(s[i])
  }

  function DigitChar(d: nat): (c: char)
    requires d < 10
    ensures IsDigit(c) && c as int - '0' as int == d
  {
    ('0' as int + d) as char
  }

  /** The number a string of decimal digits denotes (no limit on its size). */
  function DigitsValue(ds: string): nat
    requires AllDigits(ds)
  {
    if ds == [] then 0
    else DigitsValue(ds[..|ds| - 1]) * 10 + (ds[|ds| - 1] as int - '0' as int)
  }

  /** The shortest decimal writing of a natural number. */
  function FormatNat(n: nat): (s: string)
    ensures |s| > 0 && AllDigits(s)
    ensures |s| > 1 ==> s[0] != '0'
  {
    if n < 10 then [DigitChar(n)] else FormatNat(n / 10) + [DigitChar(n % 10)]
  }

  /** `%d`: a '-' before the digits of a negative number. */
  function FormatInt(n: int): (s: string)
    ensures |s| > 0
    ensures forall i :: 0 <= i < |s| ==> IsDigit(s[i]) || (i == 0 && s[i] == '-')
    ensures s[0] == '-' <==> n < 0
  {
    if n < 0 then "-" + FormatNat(-n) else FormatNat(n)
  }

  /** Reading the digits back gives the number that was written. */
  lemma {:induction false} DigitsValueOfFormatNat(n: nat)
    ensures DigitsValue(FormatNat(n)) == n
  {
    if n >= 10 {
      var s := FormatNat(n);
      DigitsValueOfFormatNat(n / 10);
      assert s[..|s| - 1] == FormatNat(n / 10);
    }
  }

  /** A sign ('+' or '-', optional) followed by one or more decimal digits,
      with no bound on the value: the syntax `strconv.Atoi` accepts. */
  function DecimalValue(s: string): (r: Option<int>)
    ensures r.Some? ==> |s| > 0
  {
    if s == [] then None
    else
      var negative := s[0] == '-';
      var digits := if s[0] == '-' || s[0] == '+' then s[1..] else s;
      if digits == [] || !AllDigits(digits) then None
      else
        var v: int := DigitsValue(digits);
        Some(if negative then -v else v)
  }

  /** `strconv.Atoi`: the decimal syntax, then a range check against the
      64-bit `int`; either failure is an error. */
  function Atoi(s: string): (r: Option<int>)
    ensures r.Some? ==> InInt64(r.value)
  {
    match DecimalValue(s)
    case Some(n) => if InInt64(n) then Some(n) else None
    case None => None
  }

  /** Reading back what `%d` wrote gives the same number, for every integer. */
  lemma FormatIntRoundTrip(n: int)
    ensures DecimalValue(FormatInt(n)) == Some(n)
  {
    if n < 0 {
      DigitsValueOfFormatNat(-n);
      assert FormatInt(n)[1..] == FormatNat(-n);
    } else {
      DigitsValueOfFormatNat(n);
    }
  }

  /** `strconv.Atoi` inverts `%d` on every 64-bit integer. */
  lemma AtoiOfFormatInt(n: int)
    requires InInt64(n)
    ensures Atoi(FormatInt(n)) == Some(n)
  {
    FormatIntRoundTrip(n);
  }

  /** Different integers are written differently. */
  lemma FormatIntInjective(a: int, b: int)
    requires FormatInt(a) == FormatInt(b)
    ensures a == b
  {
    FormatIntRoundTrip(a);
    FormatIntRoundTrip(b);
  }

  function Abs(n: int): nat
  {
    if n < 0 then -n else n
  }

  predicate AllZeros(z: string)
  {
    forall i :: 0 <= i < |z| ==> z[i] == '0'
  }

  /** `d` is `t` with zero or more '0's in front. */
  predicate ZerosThen(d: string, t: string)
  {
    |t| <= |d| && d[|d| - |t|..] == t && AllZeros(d[..|d| - |t|])
  }

  /** `s` is an optional sign, then zeros, then the shortest digits of |n|;
      a '-' sign only when n <= 0 and a negative n only after a '-'. */
  predicate PaddedDecimal(s: string, n: int)
  {
    var signed := |s| > 0 && (s[0] == '-' || s[0] == '+');
    var digits := if signed then s[1..] else s;
    && (n < 0 ==> signed && s[0] == '-')
    && (signed && s[0] == '-' ==> n <= 0)
    && ZerosThen(digits, FormatNat(Abs(n)))
  }

  /** Any non-empty digit string is zeros followed by the shortest writing
      of its value. */
  lemma {:induction false} DigitsAreZerosThenFormat(ds: string)
    requires ds != [] && AllDigits(ds)
    ensures ZerosThen(ds, FormatNat(DigitsValue(ds)))
  {
    var last := ds[|ds| - 1];
    var d := last as int - '0' as int;
    var front := ds[..|ds| - 1];
    if front == [] {
      assert DigitsValue(ds) == d;
      assert FormatNat(d) == [DigitChar(d)] == ds;
    } else {
      DigitsAreZerosThenFormat(front);
      var v := DigitsValue(front);
      var t := FormatNat(v);
      if v == 0 {
        assert t == "0";
        assert AllZeros(front);
        assert FormatNat(DigitsValue(ds)) == [last];
        assert ds[..|ds| - 1] == front;
      } else {
        var n := DigitsValue(ds);
        assert n / 10 == v && n % 10 == d;
        assert FormatNat(n) == t + [last];
        assert ds == front + [last];
        assert ds[|ds| - |t| - 1..] == front[|front| - |t|..] + [last];
        assert ds[..|ds| - |t| - 1] == front[..|front| - |t|];
      }
    }
  }

  /** Zeros in front of digits do not change their value. */
  lemma {:induction false} LeadingZerosValue(z: string, t: string)
    requires AllZeros(z) && AllDigits(t)
    ensures AllDigits(z + t) && DigitsValue(z + t) == DigitsValue(t)
  {
    if t == [] {
      assert z + t == z;
      AllZerosValue(z);
    } else {
      assert (z + t)[..|z + t| - 1] == z + t[..|t| - 1];
      LeadingZerosValue(z, t[..|t| - 1]);
    }
  }

  lemma {:induction false} AllZerosValue(z: string)
    requires AllZeros(z)
    ensures AllDigits(z) && DigitsValue(z) == 0
  {
    if z != [] {
      AllZerosValue(z[..|z| - 1]);
    }
  }

  /** What `strconv.Atoi` accepts as `n` is a padded decimal of `n`. */
  lemma AtoiPadded(s: string, n: int)
    requires Atoi(s) == Some(n)
    ensures InInt64(n) && PaddedDecimal(s, n)
  {
    var signed := |s| > 0 && (s[0] == '-' || s[0] == '+');
    var digits := if signed then s[1..] else s;
    assert DecimalValue(s) == Some(n);
    assert digits != [] && AllDigits(digits);
    var v: int := DigitsValue(digits);
    assert n == (if s[0] == '-' then -v else v);
    assert Abs(n) == v;
    DigitsAreZerosThenFormat(digits);
  }

  /** A padded decimal of a 64-bit `n` is read as `n`. */
  lemma PaddedAtoi(s: string, n: int)
    requires InInt64(n) && PaddedDecimal(s, n)
    ensures Atoi(s) == Some(n)
  {
    var signed := |s| > 0 && (s[0] == '-' || s[0] == '+');
    var digits := if signed then s[1..] else s;
    var t := FormatNat(Abs(n));
    var z := digits[..|digits| - |t|];
    assert digits == z + t;
    LeadingZerosValue(z, t);
    DigitsValueOfFormatNat(Abs(n));
    assert DigitsValue(digits) == Abs(n);
    assert s != [];
    assert DecimalValue(s) == Some(n);
  }

  /** The texts `strconv.Atoi` maps to `n` are exactly an optional sign,
      zeros and the shortest digits of |n|, for n in the 64-bit range. */
  lemma AtoiIffPadded(s: string, n: int)
    ensures Atoi(s) == Some(n) <==> InInt64(n) && PaddedDecimal(s, n)
  {
    if Atoi(s) == Some(n) {
      AtoiPadded(s, n);
    }
    if InInt64(n) && PaddedDecimal(s, n) {
      PaddedAtoi(s, n);
    }
  }

  /** Edge cases of `strconv.Atoi`: the empty string, a lone sign and a
      trailing letter are errors; a '+' sign and leading zeros are accepted. */
  lemma AtoiEdgeCases()
    ensures Atoi("") == None
    ensures Atoi("-") == None
    ensures Atoi("12a") == None
    ensures Atoi("+007") == Some(7)
  {
    assert DigitsValue("7") == 7;
    assert DigitsValue("00") == 0;
    assert DigitsValue("007") == 7;
  }
}

=== FILE: go_text.dfy ===
/** The pieces of Go's standard library the image handler uses on names:
    `filepath.Ext` (with '/' as the only separator), `strings.ToLower` and
    `strings.ReplaceAll` with one-character pattern and replacement. */
module GoText {

  /** `v` has the shape of an extension: a '.' followed by neither '.' nor '/'. */
  predicate ExtShaped(v: string)
  {
    |v| > 0 && v[0] == '.' && forall k :: 1 <= k < |v| ==> v[k] != '.' && v[k] != '/'
  }

  /** Where the final '/'-separated element of `path` begins. */
  function FinalElementStart(path: string): (start: nat)
    ensures start <= |path|
    ensures forall k :: start <= k < |path| ==> path[k] != '/'
    ensures start > 0 ==> path[start - 1] == '/'
  {
    if |path| == 0 then 0
    else if path[|path| - 1] == '/' then |path|
    else FinalElementStart(path[..|path| - 1])
  }

  /** `e` is the extension of `path` as `filepath.Ext` defines it: the suffix
      that starts at the last '.' of the final '/'-separated element, or ""
      when that element has no '.'. */
  ghost predicate IsExtOf(path: string, e: string)
  {
    && |e| <= |path|
    && e == path[|path| - |e|..]
    && if e == "" then
         forall k :: FinalElementStart(path) <= k < |path| ==> path[k] != '.'
       else
         ExtShaped(e)
  }

  /** A path has at most one extension. */
  lemma ExtUnique(path: string, e1: string, e2: string)
    requires IsExtOf(path, e1) && IsExtOf(path, e2)
    ensures e1 == e2
  {
  }

  /** `filepath.Ext`: scans back from the end, stopping at a '/' and
      returning the suffix from the first '.' met. */
  function Ext(path: string): string
  {
    if |path| == 0 then ""
    else
      var c := path[|path| - 1];
      if c == '/' then ""
      else if c == '.' then "."
      else
        var e' := Ext(path[..|path| - 1]);
        if e' == "" then "" else e' + [c]
  }

  /** Extending a path by a character other than '.' and '/' keeps an
      empty extension empty. */
  lemma NoDotStep(p': string, c: char)
    requires c != '.' && c != '/'
    requires forall k :: FinalElementStart(p') <= k < |p'| ==> p'[k] != '.'
    ensures forall k :: FinalElementStart(p' + [c]) <= k < |p' + [c]| ==> (p' + [c])[k] != '.'
  {
    var path := p' + [c];
    assert path[..|path| - 1] == p';
    assert FinalElementStart(path) == FinalElementStart(p');
  }

  /** Extending a path by a character other than '.' and '/' extends its
      non-empty extension by that character. */
  lemma ExtStep(p': string, e': string, c: char)
    requires c != '.' && c != '/'
    requires e' != "" && IsExtOf(p', e')
    ensures IsExtOf(p' + [c], e' + [c])
  {
    var path := p' + [c];
    var e := e' + [c];
    assert path[|path| - |e|..] == p'[|p'| - |e'|..] + [c];
    forall k | 1 <= k < |e|
      ensures e[k] != '.' && e[k] != '/'
    {
      if k < |e'| {
        assert e[k] == e'[k];
      }
    }
  }

  /** The backward scan finds the extension. */
  lemma {:induction false} ExtIsExtOf(path: string)
    ensures IsExtOf(path, Ext(path))
  {
    if |path| > 0 && path[|path| - 1] != '/' && path[|path| - 1] != '.' {
      var c := path[|path| - 1];
      var p' := path[..|path| - 1];
      assert path == p' + [c];
      ExtIsExtOf(p');
      if Ext(p') == "" {
        NoDotStep(p', c);
      } else {
        ExtStep(p', Ext(p'), c);
      }
    }
  }

  /** Any suffix shaped like an extension is the extension. */
  lemma ExtOfSuffix(path: string, e: string)
    requires |e| <= |path| && e == path[|path| - |e|..]
    requires ExtShaped(e)
    ensures Ext(path) == e
  {
    ExtIsExtOf(path);
    ExtUnique(path, Ext(path), e);
  }

  /** A path whose final element has no '.' has no extension. */
  lemma NoExt(path: string)
    requires forall k :: FinalElementStart(path) <= k < |path| ==> path[k] != '.'
    ensures Ext(path) == ""
  {
    ExtIsExtOf(path);
    ExtUnique(path, Ext(path), "");
  }

  /** An extension-shaped string stays the extension whatever is put in
      front of it. */
  lemma ExtAfterPrefix(prefix: string, e: string)
    requires ExtShaped(e)
    ensures Ext(prefix + e) == e
  {
    var p := prefix + e;
    assert p[|p| - |e|..] == e;
    ExtOfSuffix(p, e);
  }

  /** ASCII case folding of one character. */
  function LowerChar(c: char): char
  {
    if 'A' <= c <= 'Z' then (c as int - 'A' as int + 'a' as int) as char else c
  }

  /** `strings.ToLower` restricted to ASCII letters. */
  function ToLower(s: string): string
  {
    seq(|s|, i requires 0 <= i < |s| => LowerChar(s[i]))
  }

  /** Lowering changes only upper-case ASCII letters. */
  lemma LowerCharChanges(c: char)
    ensures LowerChar(c) != c <==> 'A' <= c <= 'Z'
    ensures LowerChar(c) == '.' <==> c == '.'
    ensures LowerChar(c) == '/' <==> c == '/'
    ensures !('A' <= LowerChar(c) <= 'Z')
  {
  }

  /** Lowering twice is lowering once. */
  lemma ToLowerIdempotent(s: string)
    ensures ToLower(ToLower(s)) == ToLower(s)
  {
    forall i | 0 <= i < |s|
      ensures LowerChar(LowerChar(s[i])) == LowerChar(s[i])
    {
      LowerCharChanges(s[i]);
    }
  }

  /** Lowering keeps every '.' and '/' where it is and adds none, so it
      keeps the shape of an extension in both directions. */
  lemma ToLowerKeepsExtShape(e: string)
    ensures ExtShaped(ToLower(e)) <==> ExtShaped(e)
  {
    forall k | 0 <= k < |e|
      ensures (e[k] == '.' <==> ToLower(e)[k] == '.') && (e[k] == '/' <==> ToLower(e)[k] == '/')
    {
      LowerCharChanges(e[k]);
    }
  }

  /** `strings.ReplaceAll(s, [from], [to])`: every occurrence of `from` becomes `to`. */
  function ReplaceChar(s: string, from: char, to: char): (r: string)
    ensures |r| == |s|
    ensures forall i :: 0 <= i < |s| && s[i] != from ==> r[i] == s[i]
    ensures forall i :: 0 <= i < |s| && s[i] == from ==> r[i] == to
    ensures from != to ==> from !in r
  {
    if s == [] then []
    else [if s[0] == from then to else s[0]] + ReplaceChar(s[1..], from, to)
  }
}

=== FILE: image_handler.dfy ===
/** The image gallery handlers of internal/handlers/image.go as transitions
    on the two stores. Every call into the object store or the database is
    an outcome parameter; the clock is a parameter too. */
module ImageHandler {
  import opened Wrappers
  import opened GoText
  import opened GoStrconv
  import opened Models
  import opened ImageNaming

  // ---------------------------------------------------------------------
  // GetImages
  // ---------------------------------------------------------------------

  /** The WHERE clause of the listing: active rows, and the category only
      when the query parameter is not empty. */
  predicate Listed(img: Image, category: string)
  {
    img.isActive && (category != "" ==> img.category == category)
  }

  ghost function MatchingIds(rows: Table, category: string): set<int>
  {
    set id | id in rows && Listed(rows[id], category)
  }

  /** ORDER BY created_at DESC. */
  predicate NewestFirst(images: seq<Image>)
  {
    forall i, j :: 0 <= i < j < |images| ==> images[i].createdAt >= images[j].createdAt
  }

  predicate Distinct(images: seq<Image>)
  {
    forall i, j :: 0 <= i < j < |images| ==> images[i] != images[j]
  }

  /** `images` is a correct answer to the listing query: each matching row
      once, nothing else, newest first (ties in any order). */
  ghost predicate IsListing(rows: Table, category: string, images: seq<Image>)
  {
    && NewestFirst(images)
    && Distinct(images)
    && |images| == |MatchingIds(rows, category)|
    && forall img :: img in images <==> img.id in rows && rows[img.id] == img && Listed(img, category)
  }

  /** No entry after the head of a newest-first sequence is newer than it. */
  lemma HeadIsNewest(images: seq<Image>)
    requires |images| > 0 && NewestFirst(images)
    ensures forall y :: y in images[1..] ==> y.createdAt <= images[0].createdAt
  {
    forall y | y in images[1..]
      ensures y.createdAt <= images[0].createdAt
    {
      var j :| 0 <= j < |images[1..]| && images[1..][j] == y;
      assert images[j + 1] == y;
    }
  }

  /** Putting an image in front of a newest-first sequence of images that
      are no newer, and that it is not among, keeps both properties. */
  lemma Prepend(head: Image, rest: seq<Image>)
    requires NewestFirst(rest)
    requires forall y :: y in rest ==> y.createdAt <= head.createdAt
    ensures NewestFirst([head] + rest)
    ensures Distinct(rest) && head !in rest ==> Distinct([head] + rest)
  {
    var r := [head] + rest;
    forall i, j | 0 <= i < j < |r|
      ensures r[i].createdAt >= r[j].createdAt
    {
      if i == 0 {
        assert r[j] in rest;
      } else {
        assert r[i] == rest[i - 1] && r[j] == rest[j - 1];
      }
    }
    if Distinct(rest) && head !in rest {
      forall i, j | 0 <= i < j < |r|
        ensures r[i] != r[j]
      {
        if i == 0 {
          assert r[j] in rest;
        } else {
          assert r[i] == rest[i - 1] && r[j] == rest[j - 1];
        }
      }
    }
  }

  /** A distinct sequence's head does not occur again in its tail. */
  lemma DistinctTail(images: seq<Image>)
    requires |images| > 0 && Distinct(images)
    ensures Distinct(images[1..]) && images[0] !in images[1..]
  {
  }

  /** The recursive case of the insertion: the head stays in front of the
      insertion into the tail. */
  lemma InsertBehindHead(x: Image, images: seq<Image>, rest: seq<Image>)
    requires |images| > 0 && NewestFirst(images) && x.createdAt < images[0].createdAt
    requires NewestFirst(rest)
    requires forall y :: y in rest <==> y in images[1..] || y == x
    requires Distinct(images[1..]) && x !in images[1..] ==> Distinct(rest)
    ensures NewestFirst([images[0]] + rest)
    ensures Distinct(images) && x !in images ==> Distinct([images[0]] + rest)
  {
    HeadIsNewest(images);
    if Distinct(images) && x !in images {
      DistinctTail(images);
    }
    Prepend(images[0], rest);
  }

  /** Puts `x` into a newest-first sequence, before rows of the same time. */
  function InsertNewestFirst(x: Image, images: seq<Image>): (r: seq<Image>)
    requires NewestFirst(images)
    ensures NewestFirst(r)
    ensures |r| == |images| + 1
    ensures forall y :: y in r <==> y in images || y == x
    ensures Distinct(images) && x !in images ==> Distinct(r)
  {
    if images == [] || x.createdAt >= images[0].createdAt then
      Prepend(x, images);
      [x] + images
    else
      assert images == [images[0]] + images[1..];
      var rest := InsertNewestFirst(x, images[1..]);
      InsertBehindHead(x, images, rest);
      [images[0]] + rest
  }

  /** Taking one more id out of the pending set adds it to the matching ids
      seen so far exactly when its row matches. */
  lemma MatchingStep(rows: Table, category: string, pending: set<int>, id: int)
    requires id in pending && id in rows
    ensures Listed(rows[id], category) ==>
      MatchingIds(rows, category) - (pending - {id}) == (MatchingIds(rows, category) - pending) + {id}
    ensures !Listed(rows[id], category) ==>
      MatchingIds(rows, category) - (pending - {id}) == MatchingIds(rows, category) - pending
  {
  }

  datatype ListError = QueryFailed

  /** Reading every row the query returns: each matching row once, newest
      first. */
  method ReadAllRows(s: Store, category: string) returns (listed: seq<Image>)
    ensures IsListing(s.rows, category, listed)
  {
    var pending := s.rows.Keys;
    listed := [];
    while pending != {}
      invariant pending <= s.rows.Keys
      invariant NewestFirst(listed) && Distinct(listed)
      invariant forall img :: img in listed <==>
        img.id in s.rows && img.id !in pending && s.rows[img.id] == img && Listed(img, category)
      invariant |listed| == |MatchingIds(s.rows, category) - pending|
      decreases pending
    {
      var id :| id in pending;
      var img := s.rows[id];
      MatchingStep(s.rows, category, pending, id);
      if Listed(img, category) {
        listed := InsertNewestFirst(img, listed);
      }
      pending := pending - {id};
    }
  }

  /** GetImages: the SELECT ... WHERE ... ORDER BY created_at DESC, or a
      500 when the query or a row scan fails. `stopsAfter` is Some(k) when a
      driver error ends `rows.Next` after k rows; the handler never asks
      `rows.Err`, so it answers with the rows read so far, a prefix of the
      listing. */
  method GetImages(s: Store, category: string, queryOk: bool, stopsAfter: Option<nat>)
    returns (r: Result<seq<Image>, ListError>)
    ensures r.Failure? <==> !queryOk
    ensures r.Success? && stopsAfter.None? ==> IsListing(s.rows, category, r.value)
    ensures r.Success? ==> exists full :: IsListing(s.rows, category, full) && r.value <= full
    ensures r.Success? && stopsAfter.Some? ==>
      |r.value| == if stopsAfter.value < |MatchingIds(s.rows, category)| then stopsAfter.value
                   else |MatchingIds(s.rows, category)|
  {
    if !queryOk {
      return Failure(QueryFailed);
    }
    var listed := ReadAllRows(s, category);
    if stopsAfter.Some? && stopsAfter.value < |listed| {
      return Success(listed[..stopsAfter.value]);
    }
    return Success(listed);
  }

  // ---------------------------------------------------------------------
  // UploadImage
  // ---------------------------------------------------------------------

  /** The `file` part of the multipart form: the client's file name and bytes. */
  datatype FilePart = FilePart(filename: string, content: seq<byte>)

  /** A parsed multipart form: the file part if present, and `category`
      ("" when absent, as `FormValue` gives it). */
  datatype UploadForm = UploadForm(file: Option<FilePart>, category: string)

  /** What the INSERT ... RETURNING id gives back: the id and creation time
      the database assigned, or an error. */
  datatype InsertOutcome = Inserted(id: int, createdAt: int) | InsertRejected

  /** Everything outside the request: the second read for the filename,
      whether reading the file succeeds, S3_BUCKET_NAME, the outcome of
      PutObject and of the INSERT, and the time put in the response. */
  datatype UploadEnv = UploadEnv(
    unixSeconds: int,
    readOk: bool,
    bucket: string,
    putOk: bool,
    insert: InsertOutcome,
    respondedAt: int
  )

  datatype UploadError =
    | FormUnreadable
    | NoFile
    | MissingCategory
    | InvalidFileType
    | ReadFailed
    | BucketUnset
    | PutFailed
    | InsertFailed
  {
    function Status(): int
    {
      match this
      case FormUnreadable => 400
      case NoFile => 400
      case MissingCategory => 400
      case InvalidFileType => 400
      case _ => 500
    }
  }

  const StatusCreated: int := 201

  /** The HTTP status of an upload: 201 Created exactly on success,
      otherwise 400 or 500 by the error. */
  function UploadStatus(r: Result<Image, UploadError>): (code: int)
    ensures code == StatusCreated <==> r.Success?
    ensures r.Failure? ==> code == r.error.Status() && code in {400, 500}
  {
    match r
    case Success(_) => StatusCreated
    case Failure(e) => e.Status()
  }

  /** The object key an accepted upload is written under. */
  function UploadKey(file: FilePart, category: string, env: UploadEnv): string
  {
    StorageKey(UploadFilename(env.unixSeconds, category, Ext(file.filename)))
  }

  /** Putting an object and then a row that refers to it keeps every row's
      object present. */
  lemma PutThenInsertConsistent(s: Store, key: string, blob: Blob, row: Image)
    requires row.s3Key == key
    ensures Consistent(s) ==> Consistent(Store(s.blobs[key := blob], s.rows))
    ensures Consistent(s) ==> Consistent(Store(s.blobs[key := blob], s.rows[row.id := row]))
  {
  }

  /** The steps of UploadImage after the form is accepted: the derived
      names, reading the file, the bucket check, PutObject, then the INSERT.
      The returned record carries the time of the response, not the
      database's. */
  function UploadAccepted(s: Store, file: FilePart, category: string, env: UploadEnv): (r: (Store, Result<Image, UploadError>))
    ensures Consistent(s) ==> Consistent(r.0)
    ensures r.1.Failure? ==> r.0.rows == s.rows
    ensures r.1.Failure? && r.1.error != InsertFailed ==> r.0 == s
    ensures r.1.Success? ==>
      && r.1.value.isActive
      && r.0.rows.Keys == s.rows.Keys + {r.1.value.id}
      && r.0.rows[r.1.value.id] == r.1.value.(createdAt := r.0.rows[r.1.value.id].createdAt)
      && r.0.blobs.Keys == s.blobs.Keys + {r.1.value.s3Key}
  {
    var ext := Ext(file.filename);
    var filename := UploadFilename(env.unixSeconds, category, ext);
    var key := StorageKey(filename);
    if !env.readOk then (s, Failure(ReadFailed))
    else if env.bucket == "" then (s, Failure(BucketUnset))
    else if !env.putOk then (s, Failure(PutFailed))
    else
      var blobs := s.blobs[key := Blob(file.content, ContentType(ext))];
      var url := ObjectUrl(env.bucket, key);
      match env.insert
      case InsertRejected => (Store(blobs, s.rows), Failure(InsertFailed))
      case Inserted(id, createdAt) =>
        var row := Image(id, filename, key, url, category, createdAt, true);
        PutThenInsertConsistent(s, key, Blob(file.content, ContentType(ext)), row);
        (Store(blobs, s.rows[id := row]), Success(row.(createdAt := env.respondedAt)))
  }

  /** UploadImage: the form checks, then the store steps; `form` is None
      when the multipart body cannot be parsed. */
  function UploadImage(s: Store, form: Option<UploadForm>, env: UploadEnv): (r: (Store, Result<Image, UploadError>))
    ensures Consistent(s) ==> Consistent(r.0)
    ensures r.1.Failure? ==> r.0.rows == s.rows
    ensures r.1.Failure? && r.1.error != InsertFailed ==> r.0 == s
    ensures r.1.Success? ==>
      && r.1.value.isActive
      && r.0.rows.Keys == s.rows.Keys + {r.1.value.id}
      && r.0.rows[r.1.value.id] == r.1.value.(createdAt := r.0.rows[r.1.value.id].createdAt)
      && r.0.blobs.Keys == s.blobs.Keys + {r.1.value.s3Key}
  {
    if form.None? then (s, Failure(FormUnreadable))
    else if form.value.file.None? then (s, Failure(NoFile))
    else if form.value.category == "" then (s, Failure(MissingCategory))
    else if !IsValidImageType(form.value.file.value.filename) then (s, Failure(InvalidFileType))
    else UploadAccepted(s, form.value.file.value, form.value.category, env)
  }

  /** The four 400 answers are exactly: an unreadable form, no file, an empty
      category, a rejected file type; they are decided in that order, before
      the clock, the bucket or either store is consulted. */
  lemma UploadBadRequestIff(s: Store, form: Option<UploadForm>, env: UploadEnv)
    ensures var r := UploadImage(s, form, env);
      (r.1.Failure? && r.1.error.Status() == 400) <==>
      (form.None? || form.value.file.None? || form.value.category == "" ||
       !IsValidImageType(form.value.file.value.filename))
    ensures form.Some? && form.value.file.Some? && form.value.category == "" ==>
      UploadImage(s, form, env).1 == Failure(MissingCategory)
    ensures (form.Some? && form.value.file.Some? && form.value.category != "" &&
             !IsValidImageType(form.value.file.value.filename)) ==>
      UploadImage(s, form, env).1 == Failure(InvalidFileType)
  {
  }

  /** The form is well formed when the upload gets past the 400 checks. */
  predicate AcceptedForm(form: Option<UploadForm>)
  {
    && form.Some?
    && form.value.file.Some?
    && form.value.category != ""
    && IsValidImageType(form.value.file.value.filename)
  }

  /** After the form checks: a failed file read is a 500 that writes
      nothing, decided before the bucket is looked at; so is an unset bucket;
      a failed put writes no row; a failed insert leaves the blob just put. */
  lemma UploadStoreFailures(s: Store, form: Option<UploadForm>, env: UploadEnv)
    requires AcceptedForm(form)
    ensures var r := UploadImage(s, form, env);
      var file := form.value.file.value;
      var key := UploadKey(file, form.value.category, env);
      && (!env.readOk ==> r == (s, Failure(ReadFailed)))
      && (env.readOk && env.bucket == "" ==> r == (s, Failure(BucketUnset)))
      && (env.readOk && env.bucket != "" && !env.putOk ==> r == (s, Failure(PutFailed)))
      && (env.readOk && env.bucket != "" && env.putOk && env.insert.InsertRejected? ==>
            && r.1 == Failure(InsertFailed)
            && r.0.rows == s.rows
            && r.0.blobs == s.blobs[key := Blob(file.content, ContentType(Ext(file.filename)))])
  {
    assert UploadImage(s, form, env) == UploadAccepted(s, form.value.file.value, form.value.category, env);
  }

  /** An upload succeeds exactly when the form is accepted and every external
      step succeeds; it then adds one blob (the file's bytes, with an image
      content type) and one active row with the database's id, and answers
      with that row's id, names, URL and the category exactly as submitted. */
  lemma UploadSuccess(s: Store, form: Option<UploadForm>, env: UploadEnv)
    ensures var r := UploadImage(s, form, env);
      r.1.Success? <==>
        AcceptedForm(form) && env.readOk && env.bucket != "" && env.putOk && env.insert.Inserted?
    ensures var r := UploadImage(s, form, env);
      r.1.Success? ==>
        var file := form.value.file.value;
        var category := form.value.category;
        var filename := UploadFilename(env.unixSeconds, category, Ext(file.filename));
        var key := StorageKey(filename);
        var img := r.1.value;
        && img == Image(env.insert.id, filename, key, ObjectUrl(env.bucket, key), category, env.respondedAt, true)
        && r.0.rows == s.rows[img.id := img.(createdAt := env.insert.createdAt)]
        && r.0.blobs == s.blobs[key := Blob(file.content, ContentType(Ext(file.filename)))]
        && "image/" <= r.0.blobs[key].contentType
  {
    var r := UploadImage(s, form, env);
  }

  /** The key of an accepted upload lies under `images/` with no further
      '/', keeps the file's extension, and is itself an accepted name. */
  lemma UploadKeyShape(file: FilePart, category: string, env: UploadEnv)
    requires IsValidImageType(file.filename)
    ensures var key := UploadKey(file, category, env);
      && KeyPrefix <= key
      && (forall i :: 0 <= i < |key| && i != 6 ==> key[i] != '/')
      && Ext(key) == Ext(file.filename)
      && IsValidImageType(key)
  {
    KeyHasOneSlash(env.unixSeconds, category, file.filename);
    FilenameKeepsExtension(env.unixSeconds, category, file.filename);
  }

  /** The database hands out an id no row has. */
  predicate FreshId(s: Store, env: UploadEnv)
  {
    env.insert.Inserted? ==> env.insert.id !in s.rows
  }

  /** A successful upload keeps keys unique exactly when no row already uses
      its key. Two uploads in the same second with the same category and
      extension do reuse a key. */
  lemma UploadKeysUniqueIff(s: Store, form: Option<UploadForm>, env: UploadEnv)
    requires KeysUnique(s) && FreshId(s, env)
    requires UploadImage(s, form, env).1.Success?
    ensures KeysUnique(UploadImage(s, form, env).0) <==>
      !KeyInUse(s, UploadKey(form.value.file.value, form.value.category, env))
  {
    var r := UploadImage(s, form, env);
    var key := UploadKey(form.value.file.value, form.value.category, env);
    var id := env.insert.id;
    if KeyInUse(s, key) {
      var other :| other in s.rows && s.rows[other].s3Key == key;
      assert r.0.rows[other].s3Key == r.0.rows[id].s3Key;
    }
  }

  // ---------------------------------------------------------------------
  // DeleteImage
  // ---------------------------------------------------------------------

  /** The outcomes of the SELECT by id, of DeleteObject and of the DELETE. */
  datatype DeleteEnv = DeleteEnv(lookupOk: bool, objectDeleteOk: bool, rowDeleteOk: bool)

  datatype DeleteError =
    | InvalidId
    | NotFound
    | LookupFailed
    | ObjectDeleteFailed
    | RowDeleteFailed
  {
    function Status(): int
    {
      match this
      case InvalidId => 400
      case NotFound => 404
      case _ => 500
    }
  }

  /** DeleteImage: parse the path id, look the row up, delete the object,
      then the row. */
  function DeleteImage(s: Store, idText: string, env: DeleteEnv): (r: (Store, Result<(), DeleteError>))
    ensures r.1 == Failure(InvalidId) <==> Atoi(idText).None?
    ensures r.1 == Failure(NotFound) <==>
      Atoi(idText).Some? && env.lookupOk && Atoi(idText).value !in s.rows
    ensures r.1.Failure? && r.1.error != RowDeleteFailed ==> r.0 == s
    ensures r.1.Failure? ==> r.0.rows == s.rows
    ensures r.1.Success? ==>
      var id := Atoi(idText).value;
      && id in s.rows
      && r.0.rows == s.rows - {id}
      && r.0.blobs == s.blobs - {s.rows[id].s3Key}
    ensures KeysUnique(s) ==> KeysUnique(r.0)
  {
    match Atoi(idText)
    case None => (s, Failure(InvalidId))
    case Some(id) =>
      if !env.lookupOk then (s, Failure(LookupFailed))
      else if id !in s.rows then (s, Failure(NotFound))
      else
        var key := s.rows[id].s3Key;
        if !env.objectDeleteOk then (s, Failure(ObjectDeleteFailed))
        else
          var blobs := s.blobs - {key};
          if !env.rowDeleteOk then (Store(blobs, s.rows), Failure(RowDeleteFailed))
          else (Store(blobs, s.rows - {id}), Success(()))
  }

  /** A bad id and an unknown id are answered without the object store:
      the outcome of DeleteObject and of the DELETE cannot change them. */
  lemma DeleteRejectsBeforeStores(s: Store, idText: string, env1: DeleteEnv, env2: DeleteEnv)
    requires env1.lookupOk == env2.lookupOk
    requires DeleteImage(s, idText, env1).1 in {Failure(InvalidId), Failure(NotFound)}
    ensures DeleteImage(s, idText, env2) == DeleteImage(s, idText, env1)
  {
  }

  /** Each outcome of the SELECT, DeleteObject and DELETE decides the answer
      for a parsed id: a failed SELECT or a failed DeleteObject is a 500 that
      changes nothing, and the row-delete failure and success happen exactly
      when every earlier step succeeded. */
  lemma DeleteOutcomes(s: Store, idText: string, env: DeleteEnv)
    ensures var r := DeleteImage(s, idText, env);
      && (Atoi(idText).Some? && !env.lookupOk ==> r == (s, Failure(LookupFailed)))
      && (Atoi(idText).Some? && env.lookupOk && Atoi(idText).value in s.rows && !env.objectDeleteOk ==>
            r == (s, Failure(ObjectDeleteFailed)))
      && (r.1 == Failure(RowDeleteFailed) <==>
            Atoi(idText).Some? && env.lookupOk && Atoi(idText).value in s.rows && env.objectDeleteOk && !env.rowDeleteOk)
      && (r.1.Success? <==>
            Atoi(idText).Some? && env.lookupOk && Atoi(idText).value in s.rows && env.objectDeleteOk && env.rowDeleteOk)
  {
  }

  /** A failed row delete after the object was removed leaves the row and
      removes its object. */
  lemma DeleteRowFailure(s: Store, idText: string, env: DeleteEnv)
    requires DeleteImage(s, idText, env).1 == Failure(RowDeleteFailed)
    ensures var id := Atoi(idText).value;
      && id in s.rows
      && DeleteImage(s, idText, env).0 == Store(s.blobs - {s.rows[id].s3Key}, s.rows)
  {
  }

  /** With unique keys, the only Delete outcome that leaves a row without
      its object is the failed row delete after a successful object delete. */
  lemma DeleteConsistencyIff(s: Store, idText: string, env: DeleteEnv)
    requires Consistent(s) && KeysUnique(s)
    ensures Consistent(DeleteImage(s, idText, env).0) <==>
      DeleteImage(s, idText, env).1 != Failure(RowDeleteFailed)
  {
    var r := DeleteImage(s, idText, env);
    if r.1 == Failure(RowDeleteFailed) {
      var id := Atoi(idText).value;
      assert r.0.rows[id].s3Key !in r.0.blobs;
    } else if r.1.Success? {
      var id := Atoi(idText).value;
      forall other | other in r.0.rows
        ensures r.0.rows[other].s3Key in r.0.blobs
      {
        assert s.rows[other].s3Key != s.rows[id].s3Key;
      }
    }
  }

  /** Without unique keys a successful Delete can leave another row
      dangling: when a second row shares the deleted row's key, the object
      both refer to is gone. */
  lemma SharedKeyDeleteDangles(s: Store, idText: string, env: DeleteEnv, other: int)
    requires DeleteImage(s, idText, env).1.Success?
    requires other in s.rows && other != Atoi(idText).value
    requires s.rows[other].s3Key == s.rows[Atoi(idText).value].s3Key
    ensures !Consistent(DeleteImage(s, idText, env).0)
  {
    var r := DeleteImage(s, idText, env);
    assert other in r.0.rows && r.0.rows[other].s3Key !in r.0.blobs;
  }

  /** Two successful uploads in the same second, with the same category and
      extension, under two fresh ids, leave two rows with one key. */
  lemma SameSecondUploadsShareKey(s: Store, form1: Option<UploadForm>, env1: UploadEnv,
                                  form2: Option<UploadForm>, env2: UploadEnv)
    requires AcceptedForm(form1) && AcceptedForm(form2)
    requires UploadImage(s, form1, env1).1.Success?
    requires FreshId(UploadImage(s, form1, env1).0, env2)
    requires UploadImage(UploadImage(s, form1, env1).0, form2, env2).1.Success?
    requires env1.unixSeconds == env2.unixSeconds
    requires form1.value.category == form2.value.category
    requires Ext(form1.value.file.value.filename) == Ext(form2.value.file.value.filename)
    ensures var s2 := UploadImage(UploadImage(s, form1, env1).0, form2, env2).0;
      && env1.insert.id in s2.rows && env2.insert.id in s2.rows
      && env1.insert.id != env2.insert.id
      && s2.rows[env1.insert.id].s3Key == s2.rows[env2.insert.id].s3Key
      && !KeysUnique(s2)
  {
    var s1 := UploadImage(s, form1, env1).0;
    UploadSuccess(s, form1, env1);
    UploadSuccess(s1, form2, env2);
  }

  /** A second Delete of the same id finds nothing. */
  lemma DeleteTwiceNotFound(s: Store, idText: string, env1: DeleteEnv, env2: DeleteEnv)
    requires DeleteImage(s, idText, env1).1.Success?
    requires env2.lookupOk
    ensures DeleteImage(DeleteImage(s, idText, env1).0, idText, env2).1 == Failure(NotFound)
  {
  }

  // ---------------------------------------------------------------------
  // Round trips across handlers
  // ---------------------------------------------------------------------

  /** After a successful upload, listing by its category (or with no
      category) shows the new image, and its key holds the uploaded bytes. */
  lemma UploadThenList(s: Store, form: Option<UploadForm>, env: UploadEnv, query: string, images: seq<Image>)
    requires UploadImage(s, form, env).1.Success?
    requires query == "" || query == form.value.category
    requires IsListing(UploadImage(s, form, env).0.rows, query, images)
    ensures exists i :: 0 <= i < |images| && images[i].id == env.insert.id
    ensures forall img :: img in images && img.id == env.insert.id ==>
      && img.category == form.value.category
      && UploadImage(s, form, env).0.blobs[img.s3Key].content == form.value.file.value.content
  {
    var r := UploadImage(s, form, env);
    UploadSuccess(s, form, env);
    var row := r.0.rows[env.insert.id];
    assert row in images;
    var i :| 0 <= i < |images| && images[i] == row;
    assert images[i].id == env.insert.id;
  }

  /** After a successful delete no listing shows the deleted id. */
  lemma DeleteThenList(s: Store, idText: string, env: DeleteEnv, query: string, images: seq<Image>)
    requires DeleteImage(s, idText, env).1.Success?
    requires IsListing(DeleteImage(s, idText, env).0.rows, query, images)
    ensures forall img :: img in images ==> img.id != Atoi(idText).value
  {
  }

  /** Deleting, by its decimal id, a row added with a fresh id under a fresh
      key undoes the addition. */
  lemma DeleteUndoesAdd(s: Store, row: Image, blob: Blob)
    requires row.id !in s.rows && row.s3Key !in s.blobs && InInt64(row.id)
    ensures var added := Store(s.blobs[row.s3Key := blob], s.rows[row.id := row]);
      DeleteImage(added, FormatInt(row.id), DeleteEnv(true, true, true)) == (s, Success(()))
  {
    var added := Store(s.blobs[row.s3Key := blob], s.rows[row.id := row]);
    AtoiOfFormatInt(row.id);
    var d := DeleteImage(added, FormatInt(row.id), DeleteEnv(true, true, true));
    assert d.0.rows == added.rows - {row.id} == s.rows;
    assert d.0.blobs == added.blobs - {row.s3Key} == s.blobs;
  }

  /** Deleting, by its decimal id, an image just uploaded under a fresh id
      and a fresh key restores both stores exactly. */
  lemma UploadThenDeleteRestores(s: Store, form: Option<UploadForm>, env: UploadEnv)
    requires UploadImage(s, form, env).1.Success?
    requires FreshId(s, env) && InInt64(env.insert.id)
    requires UploadKey(form.value.file.value, form.value.category, env) !in s.blobs
    ensures var up := UploadImage(s, form, env);
      DeleteImage(up.0, FormatInt(up.1.value.id), DeleteEnv(true, true, true)) == (s, Success(()))
  {
    var up := UploadImage(s, form, env);
    UploadSuccess(s, form, env);
    var row := up.0.rows[env.insert.id];
    assert up.0 == Store(s.blobs[row.s3Key := up.0.blobs[row.s3Key]], s.rows[row.id := row]);
    DeleteUndoesAdd(s, row, up.0.blobs[row.s3Key]);
  }
}

=== FILE: image_naming.dfy ===
/** Names the upload handler derives for a stored image: the accepted file
    types, the content type of an extension, and the filename, object key and
    public URL built from the upload second, the category and the extension
    (internal/handlers/image.go). */
module ImageNaming {
  import opened Wrappers
  import opened GoText
  import opened GoStrconv

  /** The extensions `isValidImageType` accepts, in lower case. */
  const ValidExtensions: seq<string> := [".jpg", ".jpeg", ".png", ".webp"]

  const OctetStream: string := "application/octet-stream"

  /** `isValidImageType`: the lower-cased last extension is one of the four.
      Exactly the accepted names are sent with an `image/` content type. */
  predicate IsValidImageType(filename: string): (r: bool)
    ensures r <==> "image/" <= ContentType(Ext(filename))
  {
    ToLower(Ext(filename)) in ValidExtensions
  }

  /** `getContentType`: the MIME type sent with the object. It is an
      `image/` type exactly for the four accepted extensions, in any letter
      case, and application/octet-stream for everything else. */
  function ContentType(ext: string): (r: string)
    ensures r != OctetStream <==> ToLower(ext) in ValidExtensions
    ensures r != OctetStream ==> "image/" <= r
    ensures ToLower(ext) == ".jpg" ==> r == "image/jpeg"
    ensures ToLower(ext) in [".jpeg", ".png", ".webp"] ==> r == "image/" + ToLower(ext)[1..]
    ensures r == OctetStream ==> !("image/" <= r)
  {
    match ToLower(ext)
    case ".jpg" => "image/jpeg"
    case ".jpeg" => "image/jpeg"
    case ".png" => "image/png"
    case ".webp" => "image/webp"
    case _ => assert OctetStream[0] == 'a'; OctetStream
  }

  /** `name` ends with `v`, ignoring ASCII case. */
  predicate EndsWithFold(name: string, v: string)
  {
    |v| <= |name| && ToLower(name[|name| - |v|..]) == v
  }

  /** A suffix that lowers to something shaped like an extension is the
      name's extension. */
  lemma FoldedSuffixIsExt(name: string, v: string)
    requires ExtShaped(v) && EndsWithFold(name, v)
    ensures Ext(name) == name[|name| - |v|..]
  {
    var e := name[|name| - |v|..];
    ToLowerKeepsExtShape(e);
    ExtOfSuffix(name, e);
  }

  /** An accepted name ends with its lower-cased extension, ignoring case. */
  lemma ValidEndsWithFold(name: string)
    requires IsValidImageType(name)
    ensures EndsWithFold(name, ToLower(Ext(name)))
  {
    ExtIsExtOf(name);
    assert |ToLower(Ext(name))| == |Ext(name)|;
  }

  /** A name ending, ignoring case, with an accepted extension is accepted. */
  lemma EndsWithFoldValid(name: string, v: string)
    requires v in ValidExtensions && EndsWithFold(name, v)
    ensures IsValidImageType(name)
  {
    assert ExtShaped(v);
    FoldedSuffixIsExt(name, v);
  }

  /** A name is accepted exactly when it ends, in any letter case, with one of
      the four extensions. */
  lemma ValidImageTypeIffSuffix(name: string)
    ensures IsValidImageType(name) <==>
      EndsWithFold(name, ".jpg") || EndsWithFold(name, ".jpeg") ||
      EndsWithFold(name, ".png") || EndsWithFold(name, ".webp")
  {
    if IsValidImageType(name) {
      ValidEndsWithFold(name);
    }
    forall v | v in ValidExtensions && EndsWithFold(name, v)
      ensures IsValidImageType(name)
    {
      EndsWithFoldValid(name, v);
    }
  }

  /** Upper-case and multi-dot names are accepted. */
  lemma AcceptedExamples()
    ensures IsValidImageType("a.PNG")
    ensures IsValidImageType("x.backup.webp")
  {
    var a := "a.PNG";
    assert a[1..] == ".PNG";
    assert ToLower(".PNG") == ".png";
    ValidImageTypeIffSuffix(a);
    var b := "x.backup.webp";
    assert b[8..] == ".webp";
    assert ToLower(".webp") == ".webp";
    ValidImageTypeIffSuffix(b);
  }

  /** A name without a '.' is rejected. */
  lemma RejectedWithoutDot(name: string)
    requires '.' !in name
    ensures !IsValidImageType(name)
  {
    NoExt(name);
  }

  /** Only the last extension counts. */
  lemma RejectedWrongLastExtension()
    ensures !IsValidImageType("photo.jpg.exe")
  {
    ExtOfSuffix("photo.jpg.exe", ".exe");
    assert ToLower(".exe") == ".exe";
  }

  /** A '.' in a directory part is not an extension. */
  lemma RejectedDotInDirectory()
    ensures !IsValidImageType("img.jpg/raw")
  {
    var c := "img.jpg/raw";
    assert c[4..][3] == '/';
    NoExt(c);
  }

  /** The content type ignores the letter case of the extension. */
  lemma ContentTypeCaseInsensitive(ext: string)
    ensures ContentType(ToLower(ext)) == ContentType(ext)
  {
    ToLowerIdempotent(ext);
  }

  /** `strings.ReplaceAll(category, "/", "-")`: each '/' becomes '-', every
      other character is kept in place. */
  function SanitizeCategory(category: string): (r: string)
    ensures |r| == |category|
    ensures forall i :: 0 <= i < |r| ==> r[i] == if category[i] == '/' then '-' else category[i]
    ensures '/' !in r
  {
    ReplaceChar(category, '/', '-')
  }

  /** `fmt.Sprintf("%d_%s%s", unixSeconds, sanitized category, ext)`: the
      decimal second, a '_', the sanitised category, then the extension. The
      name holds a '/' only when the extension does; `FilenameTimestamp`
      reads the second back. */
  function UploadFilename(unixSeconds: int, category: string, ext: string): (r: string)
    ensures var d := FormatInt(unixSeconds);
      && |d| + 1 + |ext| <= |r|
      && r[|d|] == '_'
      && r[|d| + 1..|r| - |ext|] == SanitizeCategory(category)
    ensures |ext| <= |r| && r[|r| - |ext|..] == ext
    ensures '/' in r <==> '/' in ext
  {
    var digits := FormatInt(unixSeconds);
    assert '/' !in digits by {
      forall i | 0 <= i < |digits| ensures digits[i] != '/' { }
    }
    digits + "_" + SanitizeCategory(category) + ext
  }

  const KeyPrefix: string := "images/"

  /** `fmt.Sprintf("images/%s", filename)`: the filename under the
      `images/` prefix, recovered by dropping the prefix. */
  function StorageKey(filename: string): (r: string)
    ensures KeyPrefix <= r && r[|KeyPrefix|..] == filename
  {
    KeyPrefix + filename
  }

  /** `fmt.Sprintf("https://%s.s3.amazonaws.com/%s", bucket, key)`: an
      https URL whose host is the bucket under s3.amazonaws.com and whose
      path is the key. */
  function ObjectUrl(bucket: string, key: string): (r: string)
    ensures |r| == 8 + |bucket| + 18 + |key|
    ensures "https://" <= r
    ensures r[8..8 + |bucket|] == bucket && r[8 + |bucket|..|r| - |key|] == ".s3.amazonaws.com/"
    ensures |key| < |r| && r[|r| - |key|..] == key && r[|r| - |key| - 1] == '/'
  {
    "https://" + bucket + ".s3.amazonaws.com/" + key
  }

  /** The object key of an upload has exactly one '/', the one after `images`. */
  lemma KeyHasOneSlash(unixSeconds: int, category: string, name: string)
    ensures var key := StorageKey(UploadFilename(unixSeconds, category, Ext(name)));
      |key| > 6 && key[6] == '/' &&
      forall i :: 0 <= i < |key| && i != 6 ==> key[i] != '/'
  {
    var ext := Ext(name);
    ExtIsExtOf(name);
    assert '/' !in ext by {
      forall i | 0 <= i < |ext| ensures ext[i] != '/' {
      }
    }
    var digits := FormatInt(unixSeconds);
    assert '/' !in digits by {
      forall i | 0 <= i < |digits| ensures digits[i] != '/' {
      }
    }
    var filename := UploadFilename(unixSeconds, category, ext);
    assert '/' !in filename;
    var key := StorageKey(filename);
    forall i | 0 <= i < |key| && i != 6
      ensures key[i] != '/'
    {
      if i >= 7 {
        assert key[i] == filename[i - 7];
      }
    }
  }

  /** The stored name keeps the extension of the uploaded name, so the stored
      object is itself an accepted image name with the same content type. */
  lemma FilenameKeepsExtension(unixSeconds: int, category: string, name: string)
    requires IsValidImageType(name)
    ensures var filename := UploadFilename(unixSeconds, category, Ext(name));
      && Ext(filename) == Ext(name)
      && Ext(StorageKey(filename)) == Ext(name)
      && IsValidImageType(StorageKey(filename))
  {
    var ext := Ext(name);
    ExtIsExtOf(name);
    assert ExtShaped(ext) by {
      assert |ToLower(ext)| == |ext|;
    }
    var front := FormatInt(unixSeconds) + "_" + SanitizeCategory(category);
    ExtAfterPrefix(front, ext);
    ExtAfterPrefix(KeyPrefix + front, ext);
    assert KeyPrefix + (front + ext) == (KeyPrefix + front) + ext;
  }

  /** The part of `s` before the first `c`, or all of `s` when there is none. */
  function TakeUntil(s: string, c: char): (r: string)
    ensures r <= s && c !in r
  {
    if s == [] || s[0] == c then [] else [s[0]] + TakeUntil(s[1..], c)
  }

  lemma {:induction false} TakeUntilJoin(a: string, c: char, b: string)
    requires c !in a
    ensures TakeUntil(a + [c] + b, c) == a
  {
    if a != [] {
      assert (a + [c] + b)[1..] == a[1..] + [c] + b;
      TakeUntilJoin(a[1..], c, b);
    }
  }

  /** The upload second can be read back from the stored filename: it is the
      decimal number before the first '_'. */
  lemma FilenameTimestamp(unixSeconds: int, category: string, ext: string)
    ensures DecimalValue(TakeUntil(UploadFilename(unixSeconds, category, ext), '_')) == Some(unixSeconds)
  {
    var digits := FormatInt(unixSeconds);
    assert '_' !in digits by {
      forall i | 0 <= i < |digits| ensures digits[i] != '_' { }
    }
    assert UploadFilename(unixSeconds, category, ext) == digits + ['_'] + (SanitizeCategory(category) + ext);
    TakeUntilJoin(digits, '_', SanitizeCategory(category) + ext);
    FormatIntRoundTrip(unixSeconds);
  }

  /** Uploads made in different seconds never share an object key, whatever
      their categories and extensions. */
  lemma DistinctSecondsDistinctKeys(t1: int, c1: string, e1: string, t2: int, c2: string, e2: string)
    ensures StorageKey(UploadFilename(t1, c1, e1)) == StorageKey(UploadFilename(t2, c2, e2))
      ==> t1 == t2
  {
    if StorageKey(UploadFilename(t1, c1, e1)) == StorageKey(UploadFilename(t2, c2, e2)) {
      var f1 := UploadFilename(t1, c1, e1);
      var f2 := UploadFilename(t2, c2, e2);
      assert f1 == StorageKey(f1)[|KeyPrefix|..];
      assert f2 == StorageKey(f2)[|KeyPrefix|..];
      FilenameTimestamp(t1, c1, e1);
      FilenameTimestamp(t2, c2, e2);
    }
  }

  /** Within one bucket the public URL determines the object key. */
  lemma ObjectUrlDeterminesKey(bucket: string, k1: string, k2: string)
    requires ObjectUrl(bucket, k1) == ObjectUrl(bucket, k2)
    ensures k1 == k2
  {
    var front := "https://" + bucket + ".s3.amazonaws.com/";
    assert ObjectUrl(bucket, k1)[|front|..] == k1;
    assert ObjectUrl(bucket, k2)[|front|..] == k2;
  }
}

=== FILE: models.dfy ===
/** The gallery's records and the abstract state of its two stores: the
    object bucket (key to blob) and the `images` table (id to row). */
module Models {

  newtype byte = x: int | 0 <= x < 256

  /** One row of the `images` table; `createdAt` is the creation time in
      seconds, kept only for ordering. */
  datatype Image = Image(
    id: int,
    filename: string,
    s3Key: string,
    s3Url: string,
    category: string,
    createdAt: int,
    isActive: bool
  )

  /** An object in the bucket: its bytes and the content type it was put with. */
  datatype Blob = Blob(content: seq<byte>, contentType: string)

  /** The table is keyed by the primary key each row carries. */
  type Table = rows: map<int, Image> | forall id :: id in rows ==> rows[id].id == id
    witness map[]

  datatype Store = Store(blobs: map<string, Blob>, rows: Table)

  /** Every row refers to an object that exists: no dangling row. */
  ghost predicate Consistent(s: Store)
  {
    forall id :: id in s.rows ==> s.rows[id].s3Key in s.blobs
  }

  /** No two rows share a storage key. */
  ghost predicate KeysUnique(s: Store)
  {
    forall i, j :: i in s.rows && j in s.rows && i != j ==> s.rows[i].s3Key != s.rows[j].s3Key
  }

  /** The key is referred to by some row. */
  ghost predicate KeyInUse(s: Store, key: string)
  {
    exists id :: id in s.rows && s.rows[id].s3Key == key
  }
}

=== FILE: wrappers.dfy ===
/** Failure-carrying datatypes shared by the model: an optional value and a
    success-or-error result. */
module Wrappers {

  datatype Option<+T> = None | Some(value: T)

  datatype Result<+R, +E> = Success(value: R) | Failure(error: E)
}
